=== FILE: README.md ===
# stickyshift core, modelled in Dafny

stickyshift reads a human-written on-call rotation and validates it before it
is synchronised with a paging service. This project models its two pure parts:

- **The shift-list codec** (`io.go`). On the wire a rotation is an ordered
  mapping `timestamp: assignee`. The last entry's assignee must be the
  sentinel `TBD`. In memory it is a list of shifts `{Email, Start, End}`.
  Decoding (`UnmarshalYAML`) turns entry *i* into a shift starting at key *i*
  and ending at key *i+1*. Encoding (`MarshalYAML`) emits `(Start, Email)`
  per shift, then `(last End, TBD)`. It refuses an empty list.
- **The validation pipeline** (`check.go`). Seven independent checks run on a
  `Schedule`: id present, no neighbouring duplicate start, no neighbouring
  duplicate assignee, ordered by start, `minDays` in 14..30, `maxDays` in
  21..56, `minDays < maxDays`. `check` keeps every failure, in that order.
- **`Read`** (`io.go`) decodes a document and runs `check`. It returns the
  schedule only when both succeed; otherwise it returns the zero schedule and
  the error.

Modules, one per concern:

| file | module | contents |
|---|---|---|
| wrappers.dfy | `Wrappers` | `Option`, `Result` |
| decimal.dfy | `Decimal` | canonical signed decimal text, with both round-trip lemmas |
| schedules.dfy | `Schedules` | `Shift`, `ShiftList`, `ExtendOpts`, `Schedule`, the `TBD` sentinel, `Contiguous` |
| codec.dfy | `Codec` | wire entries, `KvToShift`, `Decode` (the fold), `Encode`, and the declarative reading `Expected`/`FirstError` that decoding is proved against |
| codec_laws.dfy | `CodecLaws` | both round trips, the sentinel rule, short inputs, the shape of a decoded list |
| checks.dfy | `Checks` | the seven checks, the sorted copy, the aggregate `Check` and the rule predicate `Fails` |
| reading.dfy | `Reading` | `Read`, and `Marshal` (the `Write` path without the file) |
| check_laws.dfy | `CheckLaws` | how the checks combine; what a successful `Read` guarantees |

Modelling choices:

- An instant is an `int`. The timestamp text of an instant is its canonical
  signed decimal spelling. `Decimal.Parse` accepts exactly those texts, and
  `Decimal.Show` produces them. Both `Parse(Show(t)) == Some(t)` and
  `Show(t) == s` whenever `Parse(s) == Some(t)` are proved. That is why both
  codec round trips hold exactly at the text level.
- A YAML node is either `StringNode(text)` or `OtherNode`. `OtherNode` stands
  for anything Go's `.(string)` assertion rejects.
- Every error path of the shift-list decoder, the encoder and the seven
  checks is modelled, as a `Result` with a structured error that carries
  what the Go message reports. The errors of file access and of the YAML
  library are not (see "Left out"). The message texts are reproduced by
  `Codec.DecodeMessage`, `Codec.EncodeMessage` and `Checks.Message`.
- The code runs `checkExtendMinDays` before `checkExtendMaxDays`
  (check.go:12-28). The aggregate follows that code order.
- `Read` never hands out a schedule that failed a check. It also never hands
  out one whose shift list did not decode.
- One gap is proved rather than patched (`CheckLaws.LastShiftMayEndBeforeItStarts`).
  The last shift's end is never compared with its start. So a closing `TBD`
  key earlier than the last start still reads successfully. In the model,
  where two instants are equal exactly when their integers are, every other
  shift ends after it starts (`CheckLaws.ReadShiftsMoveForward`). Go's
  `time.Time` equality is finer than that, so the program itself does not
  keep this promise (see "Left out").

## Model

| member | source | states |
|---|---|---|
| Codec.DecodeMessage | io.go:50-75 | defined by its body; no contract: the texts of the two type errors, the unparseable key and the missing ender, each carrying the offending text |
| Codec.EncodeMessage | io.go:107-110 | defined by its body; no contract: the text refusing an empty shift list |
| Codec.DecodeFrom | io.go:49-77 | the loop stops with an error only at an entry that fails in its position, gets through only when every remaining entry is acceptable there, and then has built one shift per entry but the last; that it builds exactly those shifts is `Codec.DecodeFromCorrect` |
| Codec.ShiftEntry | io.go:112-114 | the entry written for a shift has a string key that parses back to the shift's start, and the assignee as its value |
| Codec.EnderEntry | io.go:115 | the closing entry has a string key that parses back to the given end, and `TBD` as its value |
| Codec.KvToShift | io.go:80-88 | succeeds exactly when the key parses as a timestamp; the shift is for the value, starts at the parsed instant and has no end yet; otherwise the error names the key text |
| Codec.EntryShift | io.go:50-62 | within one entry the key must be a string first, then the value, then the key must parse; each failure is reported as its own error |
| Codec.FirstError | io.go:49-62 | the decoding error is the one raised by the earliest failing entry; none exists exactly when every entry is acceptable in its position |
| Codec.DecodeFromCorrect | io.go:49-77 | the loop, started in any state where earlier shifts are complete and the previous one awaits its end, yields exactly the shifts the entries stand for, or the first error from that entry on |
| Codec.Decode | io.go:44-78 | decoding succeeds exactly when every entry is well formed and the last value is `TBD`; then shift i has value i, starts at key i and ends at key i+1; otherwise the error is the first one in entry order |
| Codec.ShiftEntries | io.go:112-114 | one entry per shift, in list order, keyed by the start and valued by the assignee |
| Codec.Encode | io.go:107-117 | an empty list is refused with the empty-list error; otherwise n shifts give n+1 entries, `(Start_i, Email_i)` then `(last End, TBD)` |
| CodecLaws.ParseFormat | io.go:80-88 | the timestamp text written for an instant parses back to that instant |
| CodecLaws.ShiftEntryDecodes | io.go:50-62 | the entry written for a shift is accepted and gives back that shift's assignee and start |
| CodecLaws.DecodeEncode | io.go:107-117 | decoding an encoded non-empty list gives the list back with every inner end replaced by the next start |
| CodecLaws.RoundTrip | io.go:107-117 | decode(encode(L)) == L for every non-empty contiguous L |
| CodecLaws.EntryOfDecodable | io.go:50-62 | an entry decoding accepts is exactly the entry the encoder writes for the start and assignee it denotes |
| CodecLaws.EncodeDecode | io.go:44-78 | encode(decode(M)) == M for every decodable M with at least two entries |
| CodecLaws.EncodeIgnoresInnerEnds | io.go:111-116 | two lists that differ only in the ends of non-final shifts encode identically |
| CodecLaws.DecodeSentinel | io.go:71-75 | with well-formed entries, decoding fails exactly when the last value is not `TBD`, and the error carries the value found |
| CodecLaws.EnderAsAssignee | io.go:63-75 | in any list that decodes, `TBD` at a non-final position is an ordinary assignee: its shift runs from its own key to the next key |
| CodecLaws.DecodeShort | io.go:49-77 | no entries decode to no shifts; a lone `(k, TBD)` decodes to no shifts; a lone entry fails on a bad key before the sentinel is looked at, and fails on any other assignee |
| CodecLaws.DecodeShape | io.go:63-70 | n >= 1 decoded entries give n-1 contiguous shifts, each written back by its entry and closed by the next key; the last value is `TBD` |
| Checks.Message | check.go:30-105 | defined by its body; no contract: the text of each check's failure, with the repeated assignee, the found day counts and the bounds written in decimal |
| Checks.CheckId | check.go:30-35 | fails exactly when the id is empty |
| Checks.DuplicateStartFrom | check.go:38-42 | the scan finds a neighbouring pair with equal starts exactly when one exists from the given pair on |
| Checks.CheckShiftListDupes | check.go:37-44 | fails exactly when some neighbouring pair shares a start |
| Checks.RepeatedEmailFrom | check.go:47-51 | the scan returns the first neighbouring pair from the given one on that shares an assignee, and nothing exactly when no such pair exists |
| Checks.CheckShiftListDupeEmail | check.go:46-53 | fails exactly when some neighbouring pair shares an assignee, naming the assignee of the first such pair |
| Checks.InsertByStart | check.go:59-63 | inserting into an ordered list keeps it ordered and adds exactly that shift |
| Checks.SortByStart | check.go:57-63 | the sorted copy is ordered by start, is a rearrangement of the shifts and has as many of them |
| Checks.SortKeepsOrdered | check.go:61-64 | a list already ordered by start equals its sorted copy |
| Checks.CheckShiftListSorted | check.go:55-68 | fails exactly when some neighbouring pair goes back in time |
| Checks.CheckExtendMinDays | check.go:90-98 | passes without an extend block; otherwise fails exactly when minDays < 14 or minDays > 30, reporting minDays |
| Checks.CheckExtendMaxDays | check.go:75-83 | passes without an extend block; otherwise fails exactly when maxDays < 21 or maxDays > 56, reporting maxDays |
| Checks.CheckExtendMinLessThanMax | check.go:100-105 | fails exactly when an extend block has minDays >= maxDays, reporting both |
| Checks.Collect | check.go:24-27 | the aggregate holds exactly the failures among the results |
| Checks.CollectAscending | check.go:24-27 | collecting keeps the failures in the order the checks ran |
| Checks.CollectEmpty | check.go:24-27 | the aggregate is empty exactly when every check passed |
| Checks.DupeEmailReports | check.go:46-53 | the assignee the dupe-email check names is the first repeated one and no other |
| Checks.ResultIsFailure | check.go:12-28 | each check's slot in the pipeline reports exactly the failure its rule describes |
| Checks.NoResultIffValid | check.go:12-28 | all seven checks pass exactly on valid schedules |
| Checks.Check | check.go:12-28 | the aggregate is empty exactly when all seven rules hold; otherwise it holds exactly the failing rules' errors, in the order id, dupes, dupe-email, sorted, minDays, maxDays, min<max |
| Reading.Read | io.go:91-103 | yields a schedule exactly when decoding succeeds and every check passes, and that schedule is contiguous and valid; otherwise the zero schedule, with the decode error when decoding fails and, exactly when decoding succeeds, with the non-empty aggregate of the failing checks in pipeline order |
| Reading.Join | check.go:24-27 | defined by its body; no contract: the messages of the aggregated failures joined by "; " |
| Reading.ReadMessage | io.go:96-101 | defined by its body; no contract: a decode error reads as its own message, a failed check as the joined messages of the aggregate |
| Reading.Marshal | io.go:120-126 | serialising fails exactly on an empty shift list; otherwise it keeps id and extend and encodes the shifts |
| Reading.ReadMarshal | io.go:107-117 | a valid, non-empty, contiguous schedule survives writing and reading back |
| Reading.MarshalRead | io.go:44-78 | a document that reads successfully with at least two entries is reproduced exactly by writing what was read |
| Reading.EmptyShifts | io.go:107-110 | a schedule with no shifts reads successfully but cannot be written |
| CheckLaws.StrictBetween | check.go:37-68 | under the order and duplicate-start checks, any earlier shift starts strictly before any later one |
| CheckLaws.OrderedWithoutNeighbourDuplicatesIsStrict | check.go:37-68 | with integer instants, a list accepted by both the order check and the neighbour-only duplicate check has strictly increasing starts, so no start repeats anywhere |
| CheckLaws.NonAdjacentStartRepeat | check.go:37-68 | a start repeated two places apart passes the duplicate-start check, whatever the assignees, but fails the order check |
| CheckLaws.NonAdjacentEmailRepeat | check.go:37-68 | an assignee repeated two places apart, with increasing starts, passes the duplicate-start, repeated-assignee and order checks |
| CheckLaws.OrderCheckCases | check.go:55-68 | strictly increasing starts (including none) pass the order check; a neighbouring pair going back in time fails it |
| CheckLaws.ExtendBounds | check.go:70-105 | maxDays 20 and 57 fail while 21 and 56 pass; minDays 13 and 31 fail while 14 and 30 pass; min 3 / max 2 and 2 / 2 fail while 1 / 2 passes |
| CheckLaws.NoExtendOnlyListAndIdFailures | check.go:75-105 | without an extend block the aggregate holds only list and id failures |
| CheckLaws.ReadShiftsMoveForward | io.go:96-102 | with integer instants, a schedule that reads has pairwise distinct, increasing starts, and every shift but the last ends after it starts |
| CheckLaws.LastShiftMayEndBeforeItStarts | io.go:63-75 | a document whose closing `TBD` key lies before the last start still reads; its last shift ends before it starts |

## Left out

- File access in `Read` and `Write` (io.go:92, io.go:121-125) is not modelled. A document is the already-parsed top-level mapping, and `Write` is modelled only up to the marshalled document.
- The YAML library is not modelled: parsing text, `UnmarshalStrict`'s rejection of unknown fields, and a `shifts` value that yaml.v2 cannot decode into a `MapSlice`, such as a scalar (the `unmarshal(&m)` error at io.go:46-48). A sequence is decoded item by item, so `shifts: []` is the empty entry list, and a sequence item such as `- _: _` reaches the loop and fails there like any other entry.
- RFC 3339 timestamps (section 5.6 of RFC 3339) are replaced by canonical decimal text for integer instants. Real RFC 3339 text is not canonical: offsets, `Z` and fractional seconds give several spellings of one instant. For real text, `EncodeDecode`, `MarshalRead`, `EntryOfDecodable` and `DecodeShape` would hold only up to re-spelling: Go's parser accepts `2020-01-01T00:00:00.000Z` and `2020-01-01T00:00:00+00:00`, and the encoder writes both back as `2020-01-01T00:00:00Z`. Time zones are not modelled. Go's `==` on `time.Time` (check.go:39) also compares locations, and the integer model does not.
- Checks.CheckShiftListSorted: Go's `sort.Slice` is not stable for longer lists, so the result for shifts with equal starts is unspecified in the source. The model sorts stably, so equal starts pass the order check. Only strictly increasing lists passing and backward steps failing are claimed for the source.
- CheckLaws.OrderedWithoutNeighbourDuplicatesIsStrict: holds for integer instants only. Go's `==` on `time.Time` (check.go:39) also compares locations, and `sort.Slice` with `Before` (check.go:61-64) leaves equal instants in place in short lists. So `[a at 2020-01-01T00:00:00Z, b at 2020-01-01T01:00:00+01:00, c at 2020-01-01T00:00:00Z]` passes both checks in Go, yet `a` and `c` start at an identical time.
- CheckLaws.ReadShiftsMoveForward: holds for integer instants only. In Go the entries `2020-01-01T00:00:00Z: a`, `2020-01-01T01:00:00+01:00: b`, `2020-01-02T00:00:00Z: TBD` read successfully, because the first two starts differ under `==` while being one instant. The shift for `a` then ends exactly when it starts.
- CodecLaws.EntryOfDecodable: the accepted entry equals the encoder's entry for it only because timestamp text is canonical in the model; for RFC 3339 text the two agree only up to re-spelling of the key.
- CodecLaws.DecodeShape: each entry is written back by its shift, and each next key spells the shift's end, only up to re-spelling of the key for RFC 3339 text.
- Codec.DecodeMessage: the `%q` quoting of the sentinel message is written as plain double quotes without Go's escaping. The `time.Parse` error text is replaced by a message that names the offending key.
- Reading.Join: the multi-error text is modelled as the failing checks' messages joined by "; ". The aggregate itself is the ordered list of failures.
- The receiver of `UnmarshalYAML` is taken to start empty, as it does when `Read` decodes a fresh `Schedule`. A failed decode leaves partial shifts in the Go receiver; `Read` discards them, and the model returns only the error.
- `ExtendOpts.Users` is carried but not validated, as in the source.
- Go `int` is 64 bits; the model's days are unbounded integers. The range checks compare values a YAML decoder can produce, so wrap-around does not arise.
- The paging-service client (pagerduty/), the command-line tools (tools/) and the stale `schedule.go` are not part of this model.

=== FILE: check_laws.dfy ===
/** Laws of the validation pipeline: how the adjacency-only duplicate check
    and the order check combine, the bounds of the extend checks, and what a
    schedule that reads successfully guarantees about its shifts. */
module CheckLaws {
  import opened Wrappers
  import opened Schedules
  import opened Codec
  import opened Checks
  import opened Reading
  import CodecLaws

  lemma {:induction false} StrictBetween(sl: ShiftList, i: nat, j: nat)
    requires Ordered(sl) && !AdjacentDuplicateStart(sl)
    requires i < j < |sl|
    ensures sl[i].start < sl[j].start
    decreases j - i
  {
    assert !SameStartAt(sl, j - 1);
    assert StartsInOrderAt(sl, j - 1);
    if j > i + 1 {
      StrictBetween(sl, i, j - 1);
    }
  }

  /** The duplicate-start check only compares neighbours, but together with
      the order check it rules out every repeated start: a list both accept
      has strictly increasing starts. */
  lemma OrderedWithoutNeighbourDuplicatesIsStrict(sl: ShiftList)
    requires Ordered(sl) && !AdjacentDuplicateStart(sl)
    ensures forall i, j | 0 <= i < j < |sl| :: sl[i].start < sl[j].start
  {
    forall i, j | 0 <= i < j < |sl|
      ensures sl[i].start < sl[j].start
    {
      StrictBetween(sl, i, j);
    }
  }

  /** A start repeated two places apart slips past the duplicate-start check,
      whatever the assignees, but the order check catches it. */
  lemma NonAdjacentStartRepeat(id: string, a: Shift, b: Shift, c: Shift)
    requires a.start == c.start != b.start
    ensures CheckShiftListDupes(Schedule(id, None, [a, b, c])).None?
    ensures CheckShiftListSorted(Schedule(id, None, [a, b, c])).Some?
  {
    var sl := [a, b, c];
    assert forall i: nat | i < |sl| :: !SameStartAt(sl, i);
    assert !StartsInOrderAt(sl, 0) || !StartsInOrderAt(sl, 1);
  }

  /** An assignee repeated two places apart, with starts moving forward,
      passes all three list checks. */
  lemma NonAdjacentEmailRepeat(id: string, a: Shift, b: Shift, c: Shift)
    requires a.email == c.email != b.email
    requires a.start < b.start < c.start
    ensures CheckShiftListDupes(Schedule(id, None, [a, b, c])).None?
    ensures CheckShiftListDupeEmail(Schedule(id, None, [a, b, c])).None?
    ensures CheckShiftListSorted(Schedule(id, None, [a, b, c])).None?
  {
    var sl := [a, b, c];
    assert forall i: nat | i < |sl| :: !SameStartAt(sl, i);
    assert forall i: nat | i < |sl| :: !SameEmailAt(sl, i);
    assert forall i: nat | i < |sl| :: StartsInOrderAt(sl, i);
  }

  /** Strictly increasing starts pass the order check (the empty list
      included); a neighbouring pair that goes back in time fails it. */
  lemma OrderCheckCases(s: Schedule)
    ensures (forall i | 0 <= i < |s.shifts| - 1 :: s.shifts[i].start < s.shifts[i + 1].start)
            ==> CheckShiftListSorted(s).None?
    ensures (exists i | 0 <= i < |s.shifts| - 1 :: s.shifts[i + 1].start < s.shifts[i].start)
            ==> CheckShiftListSorted(s) == Some(Unordered)
  {
    var sl := s.shifts;
    if forall i | 0 <= i < |sl| - 1 :: sl[i].start < sl[i + 1].start {
      assert forall i: nat | i < |sl| :: StartsInOrderAt(sl, i);
    }
    if exists i | 0 <= i < |sl| - 1 :: sl[i + 1].start < sl[i].start {
      var i :| 0 <= i < |sl| - 1 && sl[i + 1].start < sl[i].start;
      assert !StartsInOrderAt(sl, i);
    }
  }

  /** The extend checks at and just beyond their bounds. */
  lemma ExtendBounds(users: seq<string>)
    ensures CheckExtendMaxDays(Schedule("_", Some(ExtendOpts(14, 20, users)), [])).Some?
    ensures CheckExtendMaxDays(Schedule("_", Some(ExtendOpts(14, 21, users)), [])).None?
    ensures CheckExtendMaxDays(Schedule("_", Some(ExtendOpts(14, 56, users)), [])).None?
    ensures CheckExtendMaxDays(Schedule("_", Some(ExtendOpts(14, 57, users)), [])).Some?
    ensures CheckExtendMinDays(Schedule("_", Some(ExtendOpts(13, 21, users)), [])).Some?
    ensures CheckExtendMinDays(Schedule("_", Some(ExtendOpts(14, 21, users)), [])).None?
    ensures CheckExtendMinDays(Schedule("_", Some(ExtendOpts(30, 56, users)), [])).None?
    ensures CheckExtendMinDays(Schedule("_", Some(ExtendOpts(31, 56, users)), [])).Some?
    ensures CheckExtendMinLessThanMax(Schedule("_", Some(ExtendOpts(3, 2, users)), [])).Some?
    ensures CheckExtendMinLessThanMax(Schedule("_", Some(ExtendOpts(1, 2, users)), [])).None?
    ensures CheckExtendMinLessThanMax(Schedule("_", Some(ExtendOpts(2, 2, users)), [])).Some?
  {
  }

  /** With no extend block, none of the extend checks can fail. */
  lemma NoExtendOnlyListAndIdFailures(s: Schedule)
    requires s.extend.None?
    ensures forall e | e in Check(s) :: Rank(e) < 4
  {
    forall e | e in Check(s)
      ensures Rank(e) < 4
    {
      assert Fails(s, e);
    }
  }

  /** A schedule that reads successfully has strictly increasing, pairwise
      distinct starts, and every shift but the last ends after it starts. */
  lemma ReadShiftsMoveForward(doc: Document)
    requires Read(doc).1.None?
    ensures var sl := Read(doc).0.shifts;
      && (forall i, j | 0 <= i < j < |sl| :: sl[i].start < sl[j].start)
      && (forall i | 0 <= i < |sl| - 1 :: sl[i].start < sl[i].end)
  {
    var sl := Read(doc).0.shifts;
    OrderedWithoutNeighbourDuplicatesIsStrict(sl);
    forall i | 0 <= i < |sl| - 1
      ensures sl[i].start < sl[i].end
    {
      assert sl[i].end == sl[i + 1].start;
    }
  }

  /** Nothing checks the last shift's end against its start: a document
      whose closing `TBD` key lies before the last start still reads. */
  lemma LastShiftMayEndBeforeItStarts()
    ensures
      var doc := Document("x", None, [
        Entry(StringNode(FormatTime(10)), StringNode("a")),
        Entry(StringNode(FormatTime(20)), StringNode("b")),
        Entry(StringNode(FormatTime(15)), StringNode(ShiftListEnder))]);
      && Read(doc).1.None?
      && Read(doc).0.shifts == [Shift("a", 10, 20), Shift("b", 20, 15)]
  {
    var sl := [Shift("a", 10, 20), Shift("b", 20, 15)];
    CodecLaws.RoundTrip(sl);
    var m := Encode(sl).value;
    assert m == [
        Entry(StringNode(FormatTime(10)), StringNode("a")),
        Entry(StringNode(FormatTime(20)), StringNode("b")),
        Entry(StringNode(FormatTime(15)), StringNode(ShiftListEnder))];
    var s := Schedule("x", None, sl);
    assert !AdjacentDuplicateStart(sl) by {
      assert forall i: nat | i < |sl| :: !SameStartAt(sl, i);
    }
    assert !AdjacentDuplicateEmail(sl) by {
      assert forall i: nat | i < |sl| :: !SameEmailAt(sl, i);
    }
    assert Valid(s);
  }
}

=== FILE: checks.dfy ===
/** The validation pipeline of check.go: seven independent checks over a
    schedule, whose failures are all collected, in a fixed order. */
module Checks {
  import opened Wrappers
  import opened Schedules
  import Decimal

  const MinMaxDays := 21
  const MaxMaxDays := 56
  const MinMinDays := 14
  const MaxMinDays := 30

  /** One failed check, with the values its message reports. */
  datatype CheckError =
    | MissingId
    | DuplicateStart
    | RepeatedEmail(email: string)
    | Unordered
    | MinDaysOutOfRange(found: int)
    | MaxDaysOutOfRange(found: int)
    | MinNotBelowMax(minDays: int, maxDays: int)

  function Message(e: CheckError): string {
    match e
    case MissingId => "schedule is missing `id` field"
    case DuplicateStart => "start timestamps in `shifts` must be unique"
    case RepeatedEmail(email) =>
      email + " appears for two shifts in a row.  this should instead be expressed as a single, longer shift"
    case Unordered => "`shifts` must be ordered by time"
    case MinDaysOutOfRange(found) =>
      "extend.minDays must be between " + Decimal.Show(MinMinDays) + " and " + Decimal.Show(MaxMinDays)
      + ", but found " + Decimal.Show(found)
    case MaxDaysOutOfRange(found) =>
      "extend.maxDays must be between " + Decimal.Show(MinMaxDays) + " and " + Decimal.Show(MaxMaxDays)
      + ", but found " + Decimal.Show(found)
    case MinNotBelowMax(minDays, maxDays) =>
      "extend.minDays must be less than extend.maxDays, but " + Decimal.Show(minDays)
      + " >= " + Decimal.Show(maxDays)
  }

  /** The position of each check in the pipeline. */
  function Rank(e: CheckError): nat {
    match e
    case MissingId => 0
    case DuplicateStart => 1
    case RepeatedEmail(_) => 2
    case Unordered => 3
    case MinDaysOutOfRange(_) => 4
    case MaxDaysOutOfRange(_) => 5
    case MinNotBelowMax(_, _) => 6
  }

  // ---------------------------------------------------------------------------
  // The rules, stated declaratively.

  /** Shift `i` and its successor start at the same instant. */
  predicate SameStartAt(sl: ShiftList, i: nat) {
    i + 1 < |sl| && sl[i].start == sl[i + 1].start
  }

  /** Shift `i` and its successor belong to the same assignee. */
  predicate SameEmailAt(sl: ShiftList, i: nat) {
    i + 1 < |sl| && sl[i].email == sl[i + 1].email
  }

  predicate AdjacentDuplicateStart(sl: ShiftList) {
    exists i: nat | i < |sl| :: SameStartAt(sl, i)
  }

  predicate AdjacentDuplicateEmail(sl: ShiftList) {
    exists i: nat | i < |sl| :: SameEmailAt(sl, i)
  }

  /** Shift `i`, if it has a successor, does not start after it. */
  predicate StartsInOrderAt(sl: ShiftList, i: nat) {
    i + 1 < |sl| ==> sl[i].start <= sl[i + 1].start
  }

  /** Starts never decrease from one shift to the next. */
  predicate Ordered(sl: ShiftList) {
    forall i: nat | i < |sl| :: StartsInOrderAt(sl, i)
  }

  predicate MinDaysInRange(x: ExtendOpts) {
    MinMinDays <= x.minDays <= MaxMinDays
  }

  predicate MaxDaysInRange(x: ExtendOpts) {
    MinMaxDays <= x.maxDays <= MaxMaxDays
  }

  /** A schedule every check accepts. */
  predicate Valid(s: Schedule) {
    && s.id != ""
    && !AdjacentDuplicateStart(s.shifts)
    && !AdjacentDuplicateEmail(s.shifts)
    && Ordered(s.shifts)
    && (s.extend.Some? ==> MinDaysInRange(s.extend.value))
    && (s.extend.Some? ==> MaxDaysInRange(s.extend.value))
    && (s.extend.Some? ==> s.extend.value.minDays < s.extend.value.maxDays)
  }

  // ---------------------------------------------------------------------------
  // The checks.

  /** checkId */
  function CheckId(s: Schedule): (r: Option<CheckError>)
    ensures r.Some? <==> s.id == ""
    ensures r.Some? ==> r.value == MissingId
  {
    if s.id == "" then Some(MissingId) else None
  }

  /** The scan of checkShiftListDupes from pair `i` on. */
  function DuplicateStartFrom(sl: ShiftList, i: nat): (found: bool)
    ensures found <==> exists j: nat | i <= j < |sl| :: SameStartAt(sl, j)
    decreases |sl| - i
  {
    if i + 1 >= |sl| then false
    else if SameStartAt(sl, i) then true
    else DuplicateStartFrom(sl, i + 1)
  }

  /** checkShiftListDupes: only neighbouring shifts are compared. */
  function CheckShiftListDupes(s: Schedule): (r: Option<CheckError>)
    ensures r.Some? <==> AdjacentDuplicateStart(s.shifts)
    ensures r.Some? ==> r.value == DuplicateStart
  {
    if DuplicateStartFrom(s.shifts, 0) then Some(DuplicateStart) else None
  }

  /** The scan of checkShiftListDupeEmail from pair `i` on: the first
      neighbouring pair that shares an assignee. */
  function RepeatedEmailFrom(sl: ShiftList, i: nat): (r: Option<nat>)
    ensures r.None? <==> forall j: nat | i <= j < |sl| :: !SameEmailAt(sl, j)
    ensures r.Some? ==>
      && i <= r.value < |sl| && SameEmailAt(sl, r.value)
      && forall k: nat | i <= k < r.value :: !SameEmailAt(sl, k)
    decreases |sl| - i
  {
    if i + 1 >= |sl| then None
    else if SameEmailAt(sl, i) then Some(i)
    else RepeatedEmailFrom(sl, i + 1)
  }

  /** checkShiftListDupeEmail: fails on the first neighbouring pair with the
      same assignee and names that assignee. */
  function CheckShiftListDupeEmail(s: Schedule): (r: Option<CheckError>)
    ensures r.Some? <==> AdjacentDuplicateEmail(s.shifts)
    ensures r.Some? ==> r.value.RepeatedEmail?
    ensures r.Some? ==>
      exists j: nat | j < |s.shifts| ::
        && SameEmailAt(s.shifts, j) && s.shifts[j].email == r.value.email
        && forall k: nat | k < j :: !SameEmailAt(s.shifts, k)
  {
    match RepeatedEmailFrom(s.shifts, 0)
    case None => None
    case Some(j) => Some(RepeatedEmail(s.shifts[j].email))
  }

  lemma OrderedTail(t: ShiftList)
    requires Ordered(t) && |t| > 0
    ensures Ordered(t[1..])
  {
    forall i: nat | i < |t| - 1
      ensures StartsInOrderAt(t[1..], i)
    {
      assert StartsInOrderAt(t, i + 1);
    }
  }

  /** A shift that starts no later than the head of an ordered list can lead it. */
  lemma OrderedCons(x: Shift, t: ShiftList)
    requires Ordered(t)
    requires |t| > 0 ==> x.start <= t[0].start
    ensures Ordered([x] + t)
  {
    var r := [x] + t;
    forall i: nat | i < |r|
      ensures StartsInOrderAt(r, i)
    {
      if i > 0 {
        assert StartsInOrderAt(t, i - 1);
      }
    }
  }

  /** Inserts `x` before the first shift of `t` that does not start earlier. */
  function InsertByStart(x: Shift, t: ShiftList): (r: ShiftList)
    requires Ordered(t)
    ensures Ordered(r)
    ensures multiset(r) == multiset(t) + multiset{x}
    ensures |r| > 0 && (r[0] == x || (|t| > 0 && r[0] == t[0]))
  {
    if |t| == 0 || x.start <= t[0].start then
      OrderedCons(x, t);
      [x] + t
    else
      OrderedTail(t);
      var rest := InsertByStart(x, t[1..]);
      assert t == [t[0]] + t[1..];
      assert |t| > 1 ==> StartsInOrderAt(t, 0);
      OrderedCons(t[0], rest);
      [t[0]] + rest
  }

  /** The sorted copy checkShiftListSorted compares against: a stable
      insertion sort by start. */
  function SortByStart(sl: ShiftList): (r: ShiftList)
    ensures Ordered(r)
    ensures multiset(r) == multiset(sl)
    ensures |r| == |sl|
  {
    if |sl| == 0 then []
    else
      assert sl == [sl[0]] + sl[1..];
      InsertByStart(sl[0], SortByStart(sl[1..]))
  }

  /** A list already in order is its own sorted copy. */
  lemma {:induction false} SortKeepsOrdered(sl: ShiftList)
    requires Ordered(sl)
    ensures SortByStart(sl) == sl
  {
    if |sl| > 0 {
      OrderedTail(sl);
      SortKeepsOrdered(sl[1..]);
      assert StartsInOrderAt(sl, 0);
      assert sl == [sl[0]] + sl[1..];
    }
  }

  /** checkShiftListSorted: the list must equal its sorted copy; the input
      itself is left as it is. */
  function CheckShiftListSorted(s: Schedule): (r: Option<CheckError>)
    ensures r.Some? <==> !Ordered(s.shifts)
    ensures r.Some? ==> r.value == Unordered
  {
    var sorted := SortByStart(s.shifts);
    assert Ordered(s.shifts) ==> sorted == s.shifts by {
      if Ordered(s.shifts) {
        SortKeepsOrdered(s.shifts);
      }
    }
    if sorted == s.shifts then None else Some(Unordered)
  }

  /** checkExtendMinDays */
  function CheckExtendMinDays(s: Schedule): (r: Option<CheckError>)
    ensures r.Some? <==> s.extend.Some? && (s.extend.value.minDays < 14 || s.extend.value.minDays > 30)
    ensures r.Some? ==> r.value == MinDaysOutOfRange(s.extend.value.minDays)
  {
    match s.extend
    case None => None
    case Some(x) =>
      if x.minDays < MinMinDays || x.minDays > MaxMinDays then Some(MinDaysOutOfRange(x.minDays)) else None
  }

  /** checkExtendMaxDays */
  function CheckExtendMaxDays(s: Schedule): (r: Option<CheckError>)
    ensures r.Some? <==> s.extend.Some? && (s.extend.value.maxDays < 21 || s.extend.value.maxDays > 56)
    ensures r.Some? ==> r.value == MaxDaysOutOfRange(s.extend.value.maxDays)
  {
    match s.extend
    case None => None
    case Some(x) =>
      if x.maxDays < MinMaxDays || x.maxDays > MaxMaxDays then Some(MaxDaysOutOfRange(x.maxDays)) else None
  }

  /** checkExtendMinLessThanMax */
  function CheckExtendMinLessThanMax(s: Schedule): (r: Option<CheckError>)
    ensures r.Some? <==> s.extend.Some? && s.extend.value.minDays >= s.extend.value.maxDays
    ensures r.Some? ==> r.value == MinNotBelowMax(s.extend.value.minDays, s.extend.value.maxDays)
  {
    if s.extend.None? || s.extend.value.minDays < s.extend.value.maxDays then None
    else Some(MinNotBelowMax(s.extend.value.minDays, s.extend.value.maxDays))
  }

  // ---------------------------------------------------------------------------
  // Aggregation.

  /** Failures listed in pipeline order, each check at most once. */
  predicate Ascending(errs: seq<CheckError>) {
    forall i, j | 0 <= i < j < |errs| :: Rank(errs[i]) < Rank(errs[j])
  }

  /** Failures among `results` come in increasing pipeline order. */
  predicate RanksIncrease(results: seq<Option<CheckError>>) {
    forall i, j | 0 <= i < j < |results| && results[i].Some? && results[j].Some? ::
      Rank(results[i].value) < Rank(results[j].value)
  }

  /** The failures among check results, in order (multierr.Append of each). */
  function Collect(results: seq<Option<CheckError>>): (errs: seq<CheckError>)
    ensures forall e :: e in errs <==> Some(e) in results
  {
    if |results| == 0 then []
    else
      var rest := Collect(results[1..]);
      assert results == [results[0]] + results[1..];
      if results[0].Some? then [results[0].value] + rest else rest
  }

  /** Nothing is collected exactly when every result is a pass. */
  lemma CollectEmpty(results: seq<Option<CheckError>>)
    ensures Collect(results) == [] <==> forall i | 0 <= i < |results| :: results[i].None?
  {
    var errs := Collect(results);
    if errs != [] {
      assert errs[0] in errs;
    }
  }

  /** Collecting keeps the pipeline order of the failures. */
  lemma {:induction false} CollectAscending(results: seq<Option<CheckError>>)
    requires RanksIncrease(results)
    ensures Ascending(Collect(results))
  {
    if |results| > 0 {
      var rest := Collect(results[1..]);
      assert RanksIncrease(results[1..]);
      CollectAscending(results[1..]);
      if results[0].Some? {
        forall k | 0 <= k < |rest|
          ensures Rank(results[0].value) < Rank(rest[k])
        {
          assert rest[k] in rest;
          var j :| 0 <= j < |results[1..]| && results[1..][j] == Some(rest[k]);
          assert results[j + 1] == Some(rest[k]);
        }
      }
    }
  }

  /** Every failure sits at the position of its check. */
  predicate Ranked(results: seq<Option<CheckError>>) {
    forall i | 0 <= i < |results| && results[i].Some? :: Rank(results[i].value) == i
  }

  lemma RankedMembership(results: seq<Option<CheckError>>, e: CheckError)
    requires Ranked(results)
    ensures Some(e) in results <==> Rank(e) < |results| && results[Rank(e)] == Some(e)
  {
  }

  /** The seven checks' results, in the order check runs them. */
  function Results(s: Schedule): seq<Option<CheckError>> {
    [ CheckId(s), CheckShiftListDupes(s), CheckShiftListDupeEmail(s), CheckShiftListSorted(s),
      CheckExtendMinDays(s), CheckExtendMaxDays(s), CheckExtendMinLessThanMax(s) ]
  }

  /** The failure `e` is what its check reports for `s`. */
  predicate Fails(s: Schedule, e: CheckError) {
    match e
    case MissingId => s.id == ""
    case DuplicateStart => AdjacentDuplicateStart(s.shifts)
    case RepeatedEmail(email) =>
      exists j: nat | j < |s.shifts| ::
        && SameEmailAt(s.shifts, j) && s.shifts[j].email == email
        && forall k: nat | k < j :: !SameEmailAt(s.shifts, k)
    case Unordered => !Ordered(s.shifts)
    case MinDaysOutOfRange(found) =>
      s.extend.Some? && !MinDaysInRange(s.extend.value) && found == s.extend.value.minDays
    case MaxDaysOutOfRange(found) =>
      s.extend.Some? && !MaxDaysInRange(s.extend.value) && found == s.extend.value.maxDays
    case MinNotBelowMax(minDays, maxDays) =>
      && s.extend.Some? && s.extend.value.minDays >= s.extend.value.maxDays
      && minDays == s.extend.value.minDays && maxDays == s.extend.value.maxDays
  }

  /** The first neighbouring pair with one assignee is unique, so the
      assignee checkShiftListDupeEmail names is the one `Fails` describes. */
  lemma DupeEmailReports(s: Schedule, email: string)
    ensures CheckShiftListDupeEmail(s) == Some(RepeatedEmail(email)) <==> Fails(s, RepeatedEmail(email))
  {
    var r := CheckShiftListDupeEmail(s);
    if Fails(s, RepeatedEmail(email)) {
      var j: nat :| j < |s.shifts| && SameEmailAt(s.shifts, j) && s.shifts[j].email == email
                     && forall k: nat | k < j :: !SameEmailAt(s.shifts, k);
      assert r.Some?;
      var j': nat :| j' < |s.shifts| && SameEmailAt(s.shifts, j') && s.shifts[j'].email == r.value.email
                       && forall k: nat | k < j' :: !SameEmailAt(s.shifts, k);
      assert j == j';
    }
  }

  /** A check reports exactly the failure its rule describes. */
  lemma ResultIsFailure(s: Schedule, e: CheckError)
    ensures Rank(e) < 7
    ensures Results(s)[Rank(e)] == Some(e) <==> Fails(s, e)
  {
    match e
    case MissingId => assert Results(s)[0] == CheckId(s);
    case DuplicateStart => assert Results(s)[1] == CheckShiftListDupes(s);
    case RepeatedEmail(email) =>
      assert Results(s)[2] == CheckShiftListDupeEmail(s);
      DupeEmailReports(s, email);
    case Unordered => assert Results(s)[3] == CheckShiftListSorted(s);
    case MinDaysOutOfRange(_) => assert Results(s)[4] == CheckExtendMinDays(s);
    case MaxDaysOutOfRange(_) => assert Results(s)[5] == CheckExtendMaxDays(s);
    case MinNotBelowMax(_, _) => assert Results(s)[6] == CheckExtendMinLessThanMax(s);
  }

  /** All checks pass exactly on valid schedules. */
  lemma NoResultIffValid(s: Schedule)
    ensures (forall i | 0 <= i < 7 :: Results(s)[i].None?) <==> Valid(s)
  {
    var results := Results(s);
    assert results == [ CheckId(s), CheckShiftListDupes(s), CheckShiftListDupeEmail(s),
                        CheckShiftListSorted(s), CheckExtendMinDays(s), CheckExtendMaxDays(s),
                        CheckExtendMinLessThanMax(s) ];
    assert results[0].None? <==> s.id != "";
    assert results[1].None? <==> !AdjacentDuplicateStart(s.shifts);
    assert results[2].None? <==> !AdjacentDuplicateEmail(s.shifts);
    assert results[3].None? <==> Ordered(s.shifts);
    assert results[4].None? <==> (s.extend.Some? ==> MinDaysInRange(s.extend.value));
    assert results[5].None? <==> (s.extend.Some? ==> MaxDaysInRange(s.extend.value));
    assert results[6].None? <==> (s.extend.Some? ==> s.extend.value.minDays < s.extend.value.maxDays);
  }

  /** Every check's failure sits in that check's slot. */
  lemma ResultsRanked(s: Schedule)
    ensures Ranked(Results(s))
    ensures RanksIncrease(Results(s))
  {
    var r := Results(s);
    assert r == [ CheckId(s), CheckShiftListDupes(s), CheckShiftListDupeEmail(s),
                  CheckShiftListSorted(s), CheckExtendMinDays(s), CheckExtendMaxDays(s),
                  CheckExtendMinLessThanMax(s) ];
    RanksOfSlots(r[0], r[1], r[2], r[3], r[4], r[5], r[6]);
    RankedIncreases(r);
  }

  /** The rank of every slot is its position, stated on plain values. */
  lemma RanksOfSlots(r0: Option<CheckError>, r1: Option<CheckError>, r2: Option<CheckError>,
                     r3: Option<CheckError>, r4: Option<CheckError>, r5: Option<CheckError>,
                     r6: Option<CheckError>)
    requires r0.Some? ==> r0.value == MissingId
    requires r1.Some? ==> r1.value == DuplicateStart
    requires r2.Some? ==> r2.value.RepeatedEmail?
    requires r3.Some? ==> r3.value == Unordered
    requires r4.Some? ==> r4.value.MinDaysOutOfRange?
    requires r5.Some? ==> r5.value.MaxDaysOutOfRange?
    requires r6.Some? ==> r6.value.MinNotBelowMax?
    ensures Ranked([r0, r1, r2, r3, r4, r5, r6])
  {
  }

  lemma RankedIncreases(results: seq<Option<CheckError>>)
    requires Ranked(results)
    ensures RanksIncrease(results)
  {
  }

  /** The collected failures are exactly those the rules describe. */
  lemma CollectedAreFailures(s: Schedule)
    ensures forall e :: e in Collect(Results(s)) <==> Fails(s, e)
  {
    var results := Results(s);
    ResultsRanked(s);
    forall e
      ensures e in Collect(results) <==> Fails(s, e)
    {
      RankedMembership(results, e);
      ResultIsFailure(s, e);
    }
  }

  /** Nothing is collected exactly when the schedule is valid. */
  lemma NothingCollectedIffValid(s: Schedule)
    ensures Collect(Results(s)) == [] <==> Valid(s)
  {
    CollectEmpty(Results(s));
    NoResultIffValid(s);
  }

  /** check: runs every check and keeps every failure, in pipeline order.
      The aggregate holds exactly the failures the rules describe, and it is
      empty exactly when the schedule is valid. */
  function Check(s: Schedule): (errs: seq<CheckError>)
    ensures forall e :: e in errs <==> Fails(s, e)
    ensures Ascending(errs)
    ensures errs == [] <==> Valid(s)
  {
    ResultsRanked(s);
    CollectAscending(Results(s));
    CollectedAreFailures(s);
    NothingCollectedIffValid(s);
    Collect(Results(s))
  }

  /** The messages of an aggregate, in order. */
  function Messages(errs: seq<CheckError>): seq<string> {
    seq(|errs|, i requires 0 <= i < |errs| => Message(errs[i]))
  }
}

=== FILE: codec.dfy ===
/** The shift-list codec of io.go: an ordered list of `timestamp: assignee`
    entries on the wire, a list of fully bounded shifts in memory. */
module Codec {
  import opened Wrappers
  import opened Schedules
  import Decimal

  /** A YAML node as the decoder sees it through a Go `.(string)` assertion:
      either a string, or anything else (number, boolean, collection, null). */
  datatype Node = StringNode(text: string) | OtherNode

  /** One `key: value` item of the ordered shifts mapping. */
  datatype Entry = Entry(key: Node, value: Node)

  datatype DecodeError =
    | KeyNotString
    | EmailNotString
    | BadTimestamp(text: string)
    | MissingEnder(found: string)

  datatype EncodeError = EmptyShiftList

  function DecodeMessage(e: DecodeError): string {
    match e
    case KeyNotString => "shift time is not a yaml string"
    case EmailNotString => "shift email is not a yaml string"
    case BadTimestamp(text) => "cannot parse \"" + text + "\" as a timestamp"
    case MissingEnder(found) =>
      "last shift must have user \"" + ShiftListEnder + "\", but found \"" + found + "\""
  }

  function EncodeMessage(e: EncodeError): string {
    "cannot marshal an empty shift list"
  }

  /** The timestamp text format: the key text of an instant, and its partial inverse. */
  function FormatTime(t: Instant): string {
    Decimal.Show(t)
  }

  function ParseTime(text: string): Option<Instant> {
    Decimal.Parse(text)
  }

  /** kvToShift: parses the key as the start of a shift for assignee `v`.
      The end stays unset. */
  function KvToShift(k: string, v: string): (r: Result<Shift, DecodeError>)
    ensures r.Success? <==> ParseTime(k).Some?
    ensures r.Success? ==> r.value == Shift(v, ParseTime(k).value, UnsetInstant)
    ensures r.Failure? ==> r.error == BadTimestamp(k)
  {
    match ParseTime(k)
    case None => Failure(BadTimestamp(k))
    case Some(t) => Success(Shift(v, t, UnsetInstant))
  }

  /** What one entry contributes before its position is considered: the key
      must be a string, then the value, then the key must parse. */
  function EntryShift(e: Entry): (r: Result<Shift, DecodeError>)
    ensures !e.key.StringNode? ==> r == Failure(KeyNotString)
    ensures e.key.StringNode? && !e.value.StringNode? ==> r == Failure(EmailNotString)
    ensures e.key.StringNode? && e.value.StringNode? ==> r == KvToShift(e.key.text, e.value.text)
  {
    if !e.key.StringNode? then Failure(KeyNotString)
    else if !e.value.StringNode? then Failure(EmailNotString)
    else KvToShift(e.key.text, e.value.text)
  }

  /** UnmarshalYAML's loop from entry `i` on, with `sl` the shifts built so
      far. It stops at the first entry that fails in its position; when it
      gets through, it has built one shift per entry but the last. */
  function DecodeFrom(m: seq<Entry>, i: nat, sl: ShiftList): (r: Result<ShiftList, DecodeError>)
    requires i <= |m|
    requires i < |m| ==> |sl| == i
    ensures r.Failure? ==> exists j | i <= j < |m| :: EntryError(m, j) == Some(r.error)
    ensures r.Success? ==> forall j | i <= j < |m| :: EntryError(m, j).None?
    ensures r.Success? && i < |m| ==> |r.value| == |m| - 1
    decreases |m| - i
  {
    if i == |m| then Success(sl)
    else
      match EntryShift(m[i])
      case Failure(e) =>
        assert EntryError(m, i) == Some(e);
        Failure(e)
      case Success(s) =>
        var closed := if i > 0 then sl[i - 1 := sl[i - 1].(end := s.start)] else sl;
        var grown := if i < |m| - 1 then closed + [s] else closed;
        if i == |m| - 1 && s.email != ShiftListEnder then
          assert EntryError(m, i) == Some(MissingEnder(s.email));
          Failure(MissingEnder(s.email))
        else DecodeFrom(m, i + 1, grown)
  }

  // ---------------------------------------------------------------------------
  // The declarative reading of the wire form, against which decoding is proved.

  /** The error entry `j` raises on its own, given its position. */
  function EntryError(m: seq<Entry>, j: nat): Option<DecodeError>
    requires j < |m|
  {
    match EntryShift(m[j])
    case Failure(e) => Some(e)
    case Success(s) =>
      if j == |m| - 1 && s.email != ShiftListEnder then Some(MissingEnder(s.email)) else None
  }

  /** Every entry is well formed and the last one carries the ender. */
  predicate Decodable(m: seq<Entry>) {
    forall j | 0 <= j < |m| :: EntryError(m, j).None?
  }

  /** The first error among entries `i..`, in entry order. */
  function FirstError(m: seq<Entry>, i: nat): (r: Option<DecodeError>)
    requires i <= |m|
    ensures r.None? <==> forall j | i <= j < |m| :: EntryError(m, j).None?
    ensures r.Some? ==>
      exists j | i <= j < |m| ::
        && r == EntryError(m, j)
        && forall k | i <= k < j :: EntryError(m, k).None?
    decreases |m| - i
  {
    if i == |m| then None
    else if EntryError(m, i).Some? then EntryError(m, i)
    else FirstError(m, i + 1)
  }

  function StartOf(m: seq<Entry>, j: nat): Instant
    requires j < |m| && EntryError(m, j).None?
  {
    EntryShift(m[j]).value.start
  }

  function EmailOf(m: seq<Entry>, j: nat): string
    requires j < |m| && EntryError(m, j).None?
  {
    EntryShift(m[j]).value.email
  }

  /** The shift entry `j` stands for: it starts at key `j`, belongs to value `j`
      and ends at key `j + 1`. */
  function ShiftOf(m: seq<Entry>, j: nat): Shift
    requires j + 1 < |m| && EntryError(m, j).None? && EntryError(m, j + 1).None?
  {
    Shift(EmailOf(m, j), StartOf(m, j), StartOf(m, j + 1))
  }

  /** The shifts a decodable entry list stands for: one per entry but the last. */
  function Expected(m: seq<Entry>): (sl: ShiftList)
    requires Decodable(m)
    ensures |m| == 0 ==> sl == []
    ensures |m| > 0 ==> |sl| == |m| - 1
    ensures forall j | 0 <= j < |sl| :: sl[j] == ShiftOf(m, j)
  {
    if |m| == 0 then [] else seq(|m| - 1, j requires 0 <= j < |m| - 1 => ShiftOf(m, j))
  }

  /** The loop invariant of UnmarshalYAML: before entry `i`, the shifts of
      entries `0..i-2` are complete and shift `i-1` awaits its end. */
  predicate Built(m: seq<Entry>, i: nat, sl: ShiftList)
    requires i < |m| && |sl| == i
    requires forall j | 0 <= j < i :: EntryError(m, j).None?
  {
    && (forall j | 0 <= j < i - 1 :: sl[j] == ShiftOf(m, j))
    && (i > 0 ==> sl[i - 1].email == EmailOf(m, i - 1) && sl[i - 1].start == StartOf(m, i - 1))
  }

  /** At the last entry, closing the pending shift completes the list. */
  lemma LastEntryCloses(m: seq<Entry>, sl: ShiftList, closed: ShiftList)
    requires |m| > 0 && |sl| == |m| - 1
    requires Decodable(m)
    requires Built(m, |m| - 1, sl)
    requires closed == if |m| > 1 then sl[|m| - 2 := sl[|m| - 2].(end := StartOf(m, |m| - 1))] else sl
    ensures closed == Expected(m)
  {
    var e := Expected(m);
    forall j | 0 <= j < |closed|
      ensures closed[j] == e[j]
    {
      assert e[j] == ShiftOf(m, j);
    }
  }

  lemma {:induction false} DecodeFromCorrect(m: seq<Entry>, i: nat, sl: ShiftList)
    requires i < |m| && |sl| == i
    requires forall j | 0 <= j < i :: EntryError(m, j).None?
    requires Built(m, i, sl)
    ensures FirstError(m, i).None? ==> Decodable(m) && DecodeFrom(m, i, sl) == Success(Expected(m))
    ensures FirstError(m, i).Some? ==> DecodeFrom(m, i, sl) == Failure(FirstError(m, i).value)
    decreases |m| - i
  {
    match EntryShift(m[i])
    case Failure(e) =>
    case Success(s) =>
      if EntryError(m, i).None? {
        var closed := if i > 0 then sl[i - 1 := sl[i - 1].(end := s.start)] else sl;
        assert forall j | 0 <= j < i - 1 :: closed[j] == sl[j];
        if i == |m| - 1 {
          LastEntryCloses(m, sl, closed);
        } else {
          var grown := closed + [s];
          assert Built(m, i + 1, grown);
          DecodeFromCorrect(m, i + 1, grown);
        }
      }
  }

  /** UnmarshalYAML: decoding succeeds exactly on decodable entry lists, and
      then yields the shifts they stand for; otherwise it reports the first
      error in entry order. */
  function Decode(m: seq<Entry>): (r: Result<ShiftList, DecodeError>)
    ensures r.Success? <==> Decodable(m)
    ensures r.Success? ==> r.value == Expected(m)
    ensures r.Failure? ==> FirstError(m, 0) == Some(r.error)
  {
    if |m| == 0 then Success([])
    else
      DecodeFromCorrect(m, 0, []);
      DecodeFrom(m, 0, [])
  }

  // ---------------------------------------------------------------------------
  // Encoding.

  /** The wire entry of one shift: its start and its assignee. */
  function ShiftEntry(s: Shift): (r: Entry)
    ensures r.key.StringNode? && ParseTime(r.key.text) == Some(s.start)
    ensures r.value == StringNode(s.email)
  {
    Decimal.ParseShow(s.start);
    Entry(StringNode(FormatTime(s.start)), StringNode(s.email))
  }

  /** The closing entry: the last shift's end paired with the ender. */
  function EnderEntry(end: Instant): (r: Entry)
    ensures r.key.StringNode? && ParseTime(r.key.text) == Some(end)
    ensures r.value == StringNode(ShiftListEnder)
  {
    Decimal.ParseShow(end);
    Entry(StringNode(FormatTime(end)), StringNode(ShiftListEnder))
  }

  /** The entries of the shifts, in list order. */
  function ShiftEntries(sl: ShiftList): (m: seq<Entry>)
    ensures |m| == |sl|
    ensures forall i | 0 <= i < |sl| :: m[i] == ShiftEntry(sl[i])
  {
    if |sl| == 0 then [] else [ShiftEntry(sl[0])] + ShiftEntries(sl[1..])
  }

  /** MarshalYAML: one entry per shift, closed by the last shift's end paired
      with the ender; an empty list is refused. */
  function Encode(sl: ShiftList): (r: Result<seq<Entry>, EncodeError>)
    ensures r.Failure? <==> |sl| == 0
    ensures r.Failure? ==> r.error == EmptyShiftList
    ensures r.Success? ==> |r.value| == |sl| + 1
    ensures r.Success? ==>
      && (forall i | 0 <= i < |sl| ::
            r.value[i] == ShiftEntry(sl[i]))
      && r.value[|sl|] == EnderEntry(sl[|sl| - 1].end)
  {
    if |sl| < 1 then Failure(EmptyShiftList)
    else Success(ShiftEntries(sl) + [EnderEntry(sl[|sl| - 1].end)])
  }

  /** The list with every shift but the last ending where the next one starts. */
  function Closed(sl: ShiftList): (r: ShiftList)
    ensures |r| == |sl| && Contiguous(r)
    ensures forall i | 0 <= i < |sl| :: r[i].email == sl[i].email && r[i].start == sl[i].start
    ensures |sl| > 0 ==> r[|sl| - 1] == sl[|sl| - 1]
  {
    seq(|sl|, i requires 0 <= i < |sl| => if i < |sl| - 1 then sl[i].(end := sl[i + 1].start) else sl[i])
  }
}

=== FILE: codec_laws.dfy ===
/** Laws of the shift-list codec: the two round trips, the sentinel rule and
    the edge cases of io.go's UnmarshalYAML / MarshalYAML. */
module CodecLaws {
  import opened Wrappers
  import opened Schedules
  import opened Codec
  import Decimal

  lemma ParseFormat(t: Instant)
    ensures ParseTime(FormatTime(t)) == Some(t)
  {
    Decimal.ParseShow(t);
  }

  /** The entry of a shift decodes to that shift, its end still unset. */
  lemma ShiftEntryDecodes(s: Shift)
    ensures EntryShift(ShiftEntry(s)) == Success(Shift(s.email, s.start, UnsetInstant))
  {
    ParseFormat(s.start);
  }

  /** Encoding a non-empty list and decoding the entries gives the list back,
      except that each inner shift's end becomes the next shift's start. */
  lemma DecodeEncode(sl: ShiftList)
    requires |sl| >= 1
    ensures Encode(sl).Success?
    ensures Decode(Encode(sl).value) == Success(Closed(sl))
  {
    var m := Encode(sl).value;
    var last := Shift(ShiftListEnder, sl[|sl| - 1].end, UnsetInstant);
    assert m[|sl|] == ShiftEntry(last);
    ShiftEntryDecodes(last);
    assert EntryError(m, |sl|).None?;
    forall j | 0 <= j < |sl|
      ensures EntryShift(m[j]) == Success(Shift(sl[j].email, sl[j].start, UnsetInstant))
    {
      assert m[j] == ShiftEntry(sl[j]);
      ShiftEntryDecodes(sl[j]);
    }
    assert forall j | 0 <= j < |sl| :: EntryError(m, j).None?;
    assert Decodable(m);
    var d := Expected(m);
    forall j | 0 <= j < |sl|
      ensures d[j] == Closed(sl)[j]
    {
      assert d[j] == ShiftOf(m, j);
    }
    assert d == Closed(sl);
  }

  /** The round-trip law: a non-empty contiguous list survives encode-then-decode. */
  lemma RoundTrip(sl: ShiftList)
    requires |sl| >= 1 && Contiguous(sl)
    ensures Encode(sl).Success?
    ensures Decode(Encode(sl).value) == Success(sl)
  {
    DecodeEncode(sl);
    forall i | 0 <= i < |sl|
      ensures Closed(sl)[i] == sl[i]
    {
      assert EndsAtNextStart(sl, i);
    }
    assert Closed(sl) == sl;
  }

  /** A decodable entry is the entry of the shift its position stands for. */
  lemma EntryOfDecodable(m: seq<Entry>, j: nat)
    requires j < |m| && EntryError(m, j).None?
    ensures m[j] == ShiftEntry(EntryShift(m[j]).value)
  {
    Decimal.ShowParse(m[j].key.text, StartOf(m, j));
  }

  /** The converse round trip: entries that decode, with at least one shift,
      are reproduced exactly by encoding the decoded list. */
  lemma EncodeDecode(m: seq<Entry>)
    requires Decode(m).Success? && |m| >= 2
    ensures Encode(Decode(m).value) == Success(m)
  {
    var sl := Decode(m).value;
    var r := Encode(sl).value;
    assert |r| == |m|;
    forall j | 0 <= j < |m|
      ensures r[j] == m[j]
    {
      assert EntryError(m, j).None?;
      EntryOfDecodable(m, j);
      if j < |m| - 1 {
        assert sl[j] == ShiftOf(m, j);
      } else {
        assert sl[j - 1] == ShiftOf(m, j - 1);
        assert EmailOf(m, j) == ShiftListEnder;
      }
    }
    assert r == m;
  }

  /** Encoding ignores the end of every shift but the last. */
  lemma EncodeIgnoresInnerEnds(a: ShiftList, b: ShiftList)
    requires |a| == |b| >= 1
    requires forall i | 0 <= i < |a| :: a[i].email == b[i].email && a[i].start == b[i].start
    requires a[|a| - 1].end == b[|b| - 1].end
    ensures Encode(a) == Encode(b)
  {
    var ma := Encode(a).value;
    var mb := Encode(b).value;
    forall j | 0 <= j < |ma|
      ensures ma[j] == mb[j]
    {
      if j < |a| {
        assert ma[j] == ShiftEntry(a[j]) && mb[j] == ShiftEntry(b[j]);
      }
    }
    assert ma == mb;
  }

  /** Once every entry is well formed, decoding fails exactly when the last
      value is not the ender, and then says which value it found. */
  lemma DecodeSentinel(m: seq<Entry>)
    requires |m| >= 1
    requires forall j | 0 <= j < |m| :: EntryShift(m[j]).Success?
    ensures Decode(m).Failure? <==> EntryShift(m[|m| - 1]).value.email != ShiftListEnder
    ensures Decode(m).Failure? ==>
      Decode(m).error == MissingEnder(EntryShift(m[|m| - 1]).value.email)
  {
    var last := |m| - 1;
    var email := EntryShift(m[last]).value.email;
    assert forall j | 0 <= j < last :: EntryError(m, j).None?;
    if email != ShiftListEnder {
      assert EntryError(m, last) == Some(MissingEnder(email));
      assert !Decodable(m);
      assert FirstError(m, 0).Some?;
      var j :| 0 <= j < |m| && FirstError(m, 0) == EntryError(m, j)
                && forall k | 0 <= k < j :: EntryError(m, k).None?;
      assert j == last;
    } else {
      assert EntryError(m, last).None?;
      assert Decodable(m);
    }
  }

  /** The ender is only special in the last entry: at any other position of
      a list that decodes it is an ordinary assignee, whose shift runs from
      its own key to the next one. */
  lemma EnderAsAssignee(m: seq<Entry>, j: nat)
    requires Decode(m).Success? && j + 1 < |m|
    requires m[j].value == StringNode(ShiftListEnder)
    ensures m[j].key.StringNode? && ParseTime(m[j].key.text).Some?
    ensures m[j + 1].key.StringNode? && ParseTime(m[j + 1].key.text).Some?
    ensures Decode(m).value[j]
      == Shift(ShiftListEnder, ParseTime(m[j].key.text).value, ParseTime(m[j + 1].key.text).value)
  {
    assert Decodable(m);
    assert EntryError(m, j).None? && EntryError(m, j + 1).None?;
    assert EntryShift(m[j]) == KvToShift(m[j].key.text, m[j].value.text);
    assert EntryShift(m[j + 1]) == KvToShift(m[j + 1].key.text, m[j + 1].value.text);
    assert Decode(m).value[j] == ShiftOf(m, j);
  }

  /** No entries decode to no shifts; so does a lone `(k, "TBD")` entry,
      whose key must still parse. A lone entry with any other assignee fails. */
  lemma DecodeShort(k: string, v: string)
    ensures Decode([]) == Success([])
    ensures ParseTime(k).None? ==>
      Decode([Entry(StringNode(k), StringNode(v))]) == Failure(BadTimestamp(k))
    ensures ParseTime(k).Some? && v == ShiftListEnder ==>
      Decode([Entry(StringNode(k), StringNode(v))]) == Success([])
    ensures ParseTime(k).Some? && v != ShiftListEnder ==>
      Decode([Entry(StringNode(k), StringNode(v))]) == Failure(MissingEnder(v))
  {
    var m := [Entry(StringNode(k), StringNode(v))];
    assert Decode([]).Success? by { assert Decodable([]); }
    if Decode(m).Failure? {
      assert FirstError(m, 0) == EntryError(m, 0);
    } else {
      assert EntryError(m, 0).None?;
    }
  }

  /** Decoding `n >= 1` entries yields `n - 1` contiguous shifts: shift `i`
      is for value `i`, starts at key `i` and ends at key `i + 1`; the last
      value is the ender. */
  lemma DecodeShape(m: seq<Entry>)
    requires |m| >= 1 && Decode(m).Success?
    ensures |Decode(m).value| == |m| - 1
    ensures Contiguous(Decode(m).value)
    ensures forall i | 0 <= i < |m| - 1 ::
      m[i] == ShiftEntry(Decode(m).value[i])
    ensures forall i | 0 <= i < |m| - 1 ::
      m[i + 1].key == StringNode(FormatTime(Decode(m).value[i].end))
    ensures m[|m| - 1].value == StringNode(ShiftListEnder)
  {
    var sl := Decode(m).value;
    forall i | 0 <= i < |m| - 2
      ensures sl[i].end == sl[i + 1].start
    {
      assert sl[i] == ShiftOf(m, i) && sl[i + 1] == ShiftOf(m, i + 1);
    }
    forall i | 0 <= i < |m| - 1
      ensures m[i] == ShiftEntry(sl[i])
      ensures m[i + 1].key == StringNode(FormatTime(sl[i].end))
    {
      assert sl[i] == ShiftOf(m, i);
      assert EntryError(m, i).None? && EntryError(m, i + 1).None?;
      EntryOfDecodable(m, i);
      EntryOfDecodable(m, i + 1);
    }
    assert EntryError(m, |m| - 1).None?;
  }
}

=== FILE: decimal.dfy ===
/** Canonical signed decimal text for integers.

    It renders the integers in error messages (Go's `%v` on an int), and it is
    the concrete text format the model gives to timestamps: an instant is an
    integer and its text is its canonical decimal spelling. */
module Decimal {
  import opened Wrappers

  predicate IsDigit(c: char) {
    '0' <= c <= '9'
  }

  function DigitChar(d: int): (c: char)
    requires 0 <= d < 10
    ensures IsDigit(c)
  {
    ('0' as int + d) as char
  }

  function DigitValue(c: char): (d: int)
    requires IsDigit(c)
    ensures 0 <= d < 10
  {
    c as int - '0' as int
  }

  predicate AllDigits(s: string) {
    forall i | 0 <= i < |s| :: IsDigit(s[i])
  }

  /** A non-empty digit string with no leading zero (except "0" itself). */
  predicate Canonical(s: string) {
    && |s| >= 1
    && AllDigits(s)
    && (s[0] == '0' ==> |s| == 1)
  }

  /** The decimal digits of a natural number, most significant first. */
  function Digits(n: nat): (s: string)
    ensures Canonical(s)
    ensures s[0] == '0' <==> n == 0
    decreases n
  {
    if n < 10 then [DigitChar(n)]
    else Digits(n / 10) + [DigitChar(n % 10)]
  }

  /** The number a digit string denotes. */
  function ValueOf(s: string): nat
    requires |s| >= 1 && AllDigits(s)
    decreases |s|
  {
    if |s| == 1 then DigitValue(s[0])
    else ValueOf(s[..|s| - 1]) * 10 + DigitValue(s[|s| - 1])
  }

  /** The canonical text of an integer: a '-' sign for negatives, then its digits. */
  function Show(n: int): string {
    if n < 0 then "-" + Digits(-n) else Digits(n)
  }

  /** Accepts exactly the texts `Show` produces. */
  function Parse(s: string): Option<int> {
    if |s| > 0 && s[0] == '-' then
      if Canonical(s[1..]) && s[1..] != "0" then
        var magnitude: int := ValueOf(s[1..]);
        Some(-magnitude)
      else None
    else if Canonical(s) then Some(ValueOf(s))
    else None
  }

  lemma {:induction false} ValueOfDigits(n: nat)
    ensures ValueOf(Digits(n)) == n
    decreases n
  {
    if n >= 10 {
      var prefix := Digits(n / 10);
      var s := Digits(n);
      assert s == prefix + [DigitChar(n % 10)];
      assert s[..|s| - 1] == prefix;
      ValueOfDigits(n / 10);
    }
  }

  /** A canonical text that does not start with '0' denotes a positive number. */
  lemma {:induction false} ValueOfPositive(s: string)
    requires Canonical(s) && s[0] != '0'
    ensures ValueOf(s) >= 1
    decreases |s|
  {
    if |s| > 1 {
      var prefix := s[..|s| - 1];
      assert prefix[0] == s[0];
      ValueOfPositive(prefix);
    }
  }

  lemma {:induction false} DigitsOfValue(s: string)
    requires Canonical(s)
    ensures Digits(ValueOf(s)) == s
    decreases |s|
  {
    if |s| == 1 {
      assert Digits(ValueOf(s)) == [DigitChar(DigitValue(s[0]))];
    } else {
      var prefix := s[..|s| - 1];
      assert prefix[0] == s[0];
      ValueOfPositive(prefix);
      DigitsOfValue(prefix);
      var n := ValueOf(s);
      assert n / 10 == ValueOf(prefix);
      assert n % 10 == DigitValue(s[|s| - 1]);
      assert s == prefix + [s[|s| - 1]];
    }
  }

  /** Parsing inverts rendering. */
  lemma ParseShow(n: int)
    ensures Parse(Show(n)) == Some(n)
  {
    var s := Show(n);
    if n < 0 {
      assert s[1..] == Digits(-n);
      ValueOfDigits(-n);
    } else {
      ValueOfDigits(n);
    }
  }

  /** Rendering inverts parsing: every text `Parse` accepts is the canonical one. */
  lemma ShowParse(s: string, n: int)
    requires Parse(s) == Some(n)
    ensures Show(n) == s
  {
    if |s| > 0 && s[0] == '-' {
      var digits := s[1..];
      DigitsOfValue(digits);
      ValueOfPositive(digits);
      assert s == "-" + digits;
    } else {
      DigitsOfValue(s);
    }
  }
}

=== FILE: reading.dfy ===
/** Schedule assembly in io.go: `Read` decodes a document and validates it;
    `Write` serialises a schedule through the shift-list encoder. File access
    and the YAML text itself are outside the model: a document is the parsed
    top-level mapping. */
module Reading {
  import opened Wrappers
  import opened Schedules
  import opened Codec
  import opened Checks
  import CodecLaws

  /** A schedule document: `id`, the optional `extend` block and the ordered
      `shifts` mapping. */
  datatype Document = Document(id: string, extend: Option<ExtendOpts>, shifts: seq<Entry>)

  datatype ReadError =
    | Malformed(cause: DecodeError)
    | Invalid(failures: seq<CheckError>)

  /** multierr's rendering of several errors: their messages joined by "; ". */
  function Join(msgs: seq<string>): string {
    if |msgs| == 0 then ""
    else if |msgs| == 1 then msgs[0]
    else msgs[0] + "; " + Join(msgs[1..])
  }

  function ReadMessage(e: ReadError): string {
    match e
    case Malformed(cause) => DecodeMessage(cause)
    case Invalid(failures) => Join(Messages(failures))
  }

  /** Read: the decoded schedule when decoding succeeds and every check
      passes; otherwise the zero schedule and the error, which is the decode
      error if there is one and the aggregate of failed checks if not. */
  function Read(doc: Document): (r: (Schedule, Option<ReadError>))
    ensures r.1.None? <==>
      Decode(doc.shifts).Success? && Valid(Schedule(doc.id, doc.extend, Decode(doc.shifts).value))
    ensures r.1.None? ==>
      && r.0.id == doc.id && r.0.extend == doc.extend
      && Contiguous(r.0.shifts) && Valid(r.0)
      && Decode(doc.shifts) == Success(r.0.shifts)
    ensures r.1.Some? ==> r.0 == ZeroSchedule
    ensures Decode(doc.shifts).Failure? ==> r.1 == Some(Malformed(Decode(doc.shifts).error))
    ensures r.1.Some? ==> (r.1.value.Invalid? <==> Decode(doc.shifts).Success?)
    ensures r.1.Some? && r.1.value.Invalid? ==>
      && Decode(doc.shifts).Success?
      && r.1.value.failures != []
      && Ascending(r.1.value.failures)
      && forall e :: e in r.1.value.failures <==>
           Fails(Schedule(doc.id, doc.extend, Decode(doc.shifts).value), e)
  {
    match Decode(doc.shifts)
    case Failure(e) => (ZeroSchedule, Some(Malformed(e)))
    case Success(shifts) =>
      var s := Schedule(doc.id, doc.extend, shifts);
      var errs := Check(s);
      if errs != [] then (ZeroSchedule, Some(Invalid(errs)))
      else
        assert Contiguous(shifts) by {
          if |doc.shifts| >= 1 {
            CodecLaws.DecodeShape(doc.shifts);
          }
        }
        (s, None)
  }

  /** The serialisable form of a schedule (yaml.Marshal, without the text):
      fails exactly when the shift list is empty. */
  function Marshal(s: Schedule): (r: Result<Document, EncodeError>)
    ensures r.Failure? <==> s.shifts == []
    ensures r.Success? ==>
      r.value.id == s.id && r.value.extend == s.extend && Encode(s.shifts) == Success(r.value.shifts)
  {
    match Encode(s.shifts)
    case Failure(e) => Failure(e)
    case Success(entries) => Success(Document(s.id, s.extend, entries))
  }

  /** A valid, non-empty, contiguous schedule survives writing and reading back. */
  lemma ReadMarshal(s: Schedule)
    requires Valid(s) && |s.shifts| >= 1 && Contiguous(s.shifts)
    ensures Marshal(s).Success?
    ensures Read(Marshal(s).value) == (s, None)
  {
    CodecLaws.RoundTrip(s.shifts);
  }

  /** A document that reads successfully and holds at least one shift is
      reproduced exactly by writing what was read. */
  lemma MarshalRead(doc: Document)
    requires Read(doc).1.None? && |doc.shifts| >= 2
    ensures Marshal(Read(doc).0) == Success(doc)
  {
    CodecLaws.EncodeDecode(doc.shifts);
  }

  /** A schedule with an empty shift list reads fine but cannot be written. */
  lemma EmptyShifts(id: string)
    requires id != ""
    ensures Read(Document(id, None, [])) == (Schedule(id, None, []), None)
    ensures Marshal(Schedule(id, None, [])) == Failure(EmptyShiftList)
  {
    assert Decode([]) == Success([]) by { CodecLaws.DecodeShort("", ""); }
    assert Valid(Schedule(id, None, [])) by {
      assert !AdjacentDuplicateStart([]);
      assert !AdjacentDuplicateEmail([]);
    }
  }
}

=== FILE: schedules.dfy ===
/** The data model of io.go: schedules, shifts and the extend policy. */
module Schedules {
  import opened Wrappers

  /** A point in time. Instants are totally ordered; time zones are not modelled. */
  type Instant = int

  /** The end a freshly decoded shift carries until the next entry closes it
      (Go's zero `time.Time`). */
  const UnsetInstant: Instant := 0

  /** One assignee's on-call window. */
  datatype Shift = Shift(email: string, start: Instant, end: Instant)

  /** Shifts in list order, which is meant to be chronological order. */
  type ShiftList = seq<Shift>

  /** The optional policy for extending the rotation. */
  datatype ExtendOpts = ExtendOpts(minDays: int, maxDays: int, users: seq<string>)

  /** The aggregate root: identifier, optional extend block, shift list.
      A missing `extend` block (Go's nil pointer) is `None`. */
  datatype Schedule = Schedule(id: string, extend: Option<ExtendOpts>, shifts: ShiftList)

  /** The assignee that marks the end of the rotation horizon in the wire form. */
  const ShiftListEnder := "TBD"

  /** The Go zero value `Schedule{}`. */
  const ZeroSchedule := Schedule("", None, [])

  /** Shift `i`, if it has a successor, ends exactly where the successor starts. */
  predicate EndsAtNextStart(sl: ShiftList, i: nat) {
    i + 1 < |sl| ==> sl[i].end == sl[i + 1].start
  }

  /** Each shift ends exactly where the next one starts. */
  predicate Contiguous(sl: ShiftList) {
    forall i: nat | i < |sl| :: EndsAtNextStart(sl, i)
  }
}

=== FILE: wrappers.dfy ===
/** Option and Result: the model's stand-ins for Go's nil pointers and `(value, error)` returns. */
module Wrappers {

  /** An optional value: Go's nil pointer or nil error on the None side. */
  datatype Option<+T> = None | Some(value: T)

  /** The outcome of an operation that returns either a value or an error. */
  datatype Result<+T, +E> = Success(value: T) | Failure(error: E)
}
